=== FILE: README.md ===
# elver `docker_build` — a Dafny model

elver adds a `docker_build` command to a Python package's `setup.py`. The command
takes its options from the command line or `setup.cfg` and builds a Docker image
from the package directory. If the package has no Dockerfile, the command writes a
default one first. This project models the command object in
`elver/docker_build.py` and proves what it does with its options and the file it
generates:

- `initialize_options` sets every option to unset, except that `rm` is off.
- `finalize_options` fills nine unset options: eight with fixed defaults, and the
  repository with a freshly drawn identifier, which the command announces.
- `__generate_docker_file` writes a header, a `FROM` line, then optional `COPY`,
  `RUN pip install`, `ENTRYPOINT` and `CMD` lines. Each optional line depends on
  the options and on whether the requirements file exists.
- `run` looks for the configured Dockerfile under the build context. If it is not
  there, `run` generates one and switches to the generated name. It then hands the
  Docker client a build request tagged `repository:tag`.

Modules:

- `Wrappers`: `Option`.
- `Paths`: POSIX `os.path.join`.
- `Text`: writing lines with `writelines`, and splitting a file back into lines.
- `CommandOptions`: the option record, its initial value and finalization as a function.
- `Dockerfile`: the generated lines as a function, plus how a reader classifies each line by its instruction keyword.
- `Command`: the build request, the image reference, and the `DockerBuild` class with
  its constructor, `FinalizeOptions`, `GenerateDockerFile` and `Run`.

Each method of the class is proved against the functions of the other modules. The
properties of those functions are proved as lemmas.

How the outside world appears in the model:

- The filesystem is a parameter `fs`: the set of paths that exist when the call
  starts. Paths are compared as strings. Opening the generated Dockerfile for
  writing creates it, so the generator's requirements probe looks in `fs` plus
  that file's location, spelled `join(path, generated name)`.
- The UUID is a parameter `freshId`.
- Whether the generated Dockerfile can be opened for writing is a parameter
  `canCreate`. It is false when the build context is missing or not writable.
  Opening then raises `IOError` at `elver/docker_build.py:127`, after the notice, and
  `run` fails before the Docker client is called.
- Announcements are appended to a field `announcements`.
- The file the generator writes is returned as a `WrittenFile` value: its location
  and its lines.
- The `buildargs` option is kept like every other option. The build request has no
  field for it, because `elver/docker_build.py:153-171` never passes it to the build.

## Model

| member | source | states |
|---|---|---|
| CommandOptions.Initial | elver/docker_build.py:71-97 | Definition: every option is `None` except `rm`, which is `False`. |
| CommandOptions.Truthy | elver/docker_build.py:131-133 | Definition: Python truthiness of a flag. `None` and `False` are false, so only a flag set to true holds. |
| CommandOptions.IsSet | elver/docker_build.py:138-140 | Definition: Python truthiness of a string option. `None` and the empty string are false. |
| CommandOptions.EntryPointText | elver/docker_build.py:139 | The text after `ENTRYPOINT`. It is the option's value whenever the option is set and non-empty. |
| CommandOptions.CmdText | elver/docker_build.py:141 | The text after `CMD`. It is the option's value whenever the option is set and non-empty. |
| Text.Concat | elver/docker_build.py:142 | Definition: what `writelines` puts in the file, the lines one after another with nothing added. |
| Dockerfile.Header | elver/docker_build.py:129 | Definition: `#THIS FILE WAS GENERATED BY ELVER, DO NOT CHANGE MANUALLY` followed by a newline. |
| Dockerfile.FromLine | elver/docker_build.py:130 | Definition: `FROM <image>` and a newline. |
| Dockerfile.CopyLine | elver/docker_build.py:132 | Definition: `COPY <src> <dest>` and a newline. |
| Dockerfile.PipInstallLine | elver/docker_build.py:137 | Definition: `RUN ["pip", "install", "-r", "<requirements>"]` and a newline. |
| Dockerfile.EntrypointLine | elver/docker_build.py:139 | Definition: `ENTRYPOINT <text>` and a newline. |
| Dockerfile.CmdLine | elver/docker_build.py:141 | Definition: `CMD <text>` and a newline. |
| Dockerfile.CopiesPath | elver/docker_build.py:131 | Definition: copying is on unless `gen_do_not_copy_path` is true. |
| Dockerfile.InstallsRequirements | elver/docker_build.py:133-136 | Definition: installing is not skipped, copying is on, and `join(path, requirements file)` is among the existing paths. |
| Command.ImageReference | elver/docker_build.py:156 | The reference is the repository, one colon, then the tag, exactly. |
| Command.ConfiguredDockerfile | elver/docker_build.py:150 | The path probed ends with the configured Dockerfile name, and is that name itself when it is absolute. |
| Command.EffectiveDockerfile | elver/docker_build.py:150-152 | The configured name is kept exactly when the path probed exists. Otherwise `.Dockerfile-generated` replaces it. Either way the chosen name, joined under the build context, exists once the generated file is written. |
| Paths.Join | elver/docker_build.py:134-135 | An absolute second argument replaces the first. Otherwise the first argument is kept as a prefix. The result always ends with the second argument. Joining adds no character except the separator. |
| Paths.JoinRelative | elver/docker_build.py:150 | A relative name under a directory that does not end in `/` gets exactly one separator between them. |
| Text.Line | elver/docker_build.py:129-141 | Each instruction string is its body followed by one newline. A newline-free body gives one complete line. |
| Text.LinesOf | elver/docker_build.py:142 | Splitting a file into lines loses nothing: concatenating the pieces gives the file back. Every piece except the last is a complete line. |
| Text.LinesOfCons | elver/docker_build.py:142 | A file that starts with a complete line splits into that line followed by the split of the rest. |
| Text.LinesOfConcat | elver/docker_build.py:142 | Splitting what `writelines` wrote for complete lines gives exactly those lines back. |
| CommandOptions.Finalize | elver/docker_build.py:99-121 | Afterwards none of the nine defaulted options is unset. A set option keeps its value. An unset one gets its literal default, or the fresh identifier for the repository. Every other option, `rm` included, is untouched. Finalizing twice changes nothing. |
| CommandOptions.FinalizeNotices | elver/docker_build.py:100-104 | Exactly one "Using a random repository" notice if the repository was unset, and none otherwise. |
| CommandOptions.FinalizeInitial | elver/docker_build.py:71-121 | From the initial options, finalizing gives exactly the documented defaults. `rm` stays off and one notice names the fresh repository. |
| Command.DockerBuild.constructor | elver/docker_build.py:71-97 | Every option is unset except `rm`, which is off. Nothing has been announced. |
| Command.DockerBuild.FinalizeOptions | elver/docker_build.py:99-121 | The new options are `Finalize` of the old ones. The notices are the old ones plus `FinalizeNotices`. |
| Dockerfile.GeneratedLines | elver/docker_build.py:128-141 | Between two and six lines. The first is the generation header and the second is `FROM <base image>`. |
| Dockerfile.HeaderKind | elver/docker_build.py:129 | The header reads back as a comment. |
| Dockerfile.FromLineKind | elver/docker_build.py:130 | A `FROM` line reads back as a FROM instruction. |
| Dockerfile.CopyLineKind | elver/docker_build.py:132 | A `COPY` line reads back as a COPY instruction. |
| Dockerfile.PipInstallLineKind | elver/docker_build.py:137 | The pip install line reads back as a RUN instruction. |
| Dockerfile.EntrypointLineKind | elver/docker_build.py:139 | An `ENTRYPOINT` line reads back as an ENTRYPOINT instruction. |
| Dockerfile.CmdLineKind | elver/docker_build.py:141 | A `CMD` line reads back as a CMD instruction. |
| Dockerfile.KindsOfLayout | elver/docker_build.py:128-141 | The instructions of a generator-ordered layout are header, FROM, then exactly the optional instructions that are switched on. |
| Dockerfile.LayoutMembers | elver/docker_build.py:131-141 | An optional instruction is in the layout if and only if it is switched on. |
| Dockerfile.LayoutIncreasing | elver/docker_build.py:128-141 | The layout's instructions are in strictly increasing order. |
| Dockerfile.GeneratedShape | elver/docker_build.py:128-141 | The generated lines come in the order header, FROM, COPY, RUN, ENTRYPOINT, CMD, with no instruction twice. COPY is present iff copying is on. RUN is present iff install is not skipped, copying is on and `join(path, requirements file)` exists. ENTRYPOINT and CMD are each present iff set and non-empty. |
| Dockerfile.GeneratedShapeWitness | elver/docker_build.py:128-141 | Every generated line holds one of the instructions that are switched on. |
| Dockerfile.GeneratedCopyLine | elver/docker_build.py:131-132 | `COPY <path> <copy dir>` is present iff copying is on. When it is present, it is the line right after FROM. |
| Dockerfile.GeneratedPipInstallLine | elver/docker_build.py:133-137 | The `RUN ["pip", "install", "-r", "<r>"]` line, with `<r>` = `join(<copy dir>, <requirements>)`, is present iff install is not skipped, copying is on and the requirements file exists under the build context. |
| Dockerfile.GeneratedEntrypointAndCmd | elver/docker_build.py:138-141 | `ENTRYPOINT <e>` is present iff the entry point is non-empty. Likewise for `CMD <c>` and the command. |
| Dockerfile.HeaderIsFirstLine | elver/docker_build.py:129 | Whatever the options, the written file's first line is the generation header. |
| Dockerfile.GeneratedPiecesAreLines | elver/docker_build.py:129-141 | With newline-free options, every line the generator can write is one complete line. |
| Dockerfile.GeneratedFileReadsBack | elver/docker_build.py:128-142 | With newline-free options, splitting the written file into lines gives exactly the generated lines. |
| Command.ImageReferenceRoundTrip | elver/docker_build.py:156 | Splitting `repository:tag` at its last colon gives back the repository and the tag, provided the tag has no colon. |
| Command.PlannedRequest | elver/docker_build.py:150-171 | The build context is the configured path. An existing configured Dockerfile is used. A missing one is replaced by `.Dockerfile-generated`, so the Dockerfile named always exists once the generated one is written. The tag is always `repository:tag`, and for a colon-free tag it reads back as that repository and tag. Every other build option is forwarded unchanged. |
| Command.RequirementsProbeSeesGeneratedFile | elver/docker_build.py:126-137 | When copying and installing are on and `join(path, requirements file)` names the generated Dockerfile with the same spelling as `join(path, generated name)`, the pip install line is written. The file was created at :127, before the probe at :136. |
| Command.DockerBuild.GenerateDockerFile | elver/docker_build.py:123-144 | Always announces the missing Dockerfile. If the file can be created, returns the generated name and writes `GeneratedLines` of the options to `join(path, generated name)`, probing for the requirements file among the existing paths plus that freshly created file. If it cannot be created, returns nothing and writes nothing. |
| Command.DockerBuild.Run | elver/docker_build.py:146-171 | If `join(path, dockerfile)` exists, the request is `PlannedRequest` of the options, and nothing is generated, announced or changed. If it is missing, one notice is announced. Then, if the file can be created, the request is `PlannedRequest`, the `dockerfile` option alone changes to the generated name, and the generated file is written. If it cannot be created, there is no request, nothing is written and the options are unchanged. |

## Left out

- The Docker client call `client.images.build` and the "Image built" notice: `Run` stops at the request it would send.
- Creating and flushing the generated file: `GenerateDockerFile` returns the location and the lines instead of writing them.
- The `os.path.exists` probes: they are membership tests in the parameter `fs`. The only change to the filesystem that is modelled is the creation of the generated Dockerfile. Changes made by other processes during a call are not modelled.
- The model follows Python 2: `file(...)` at `elver/docker_build.py:127` is a Python 2 built-in. Under Python 3 that line raises `NameError` after the notice, nothing is written and `run` fails. The model captures only the Python 2 failure, when the file cannot be opened (`canCreate` false), not this one.
- `docker.from_env()` at `elver/docker_build.py:147`, which runs before the Dockerfile probe and can raise before anything is generated: `Run` assumes the client was obtained.
- The UUID drawn by `uuid.uuid1()`: it is a parameter `freshId`, already formatted as text.
- The `user_options` and `boolean_options` tables and the distutils machinery that parses `setup.cfg` and the command line: option values arrive already typed. The truthiness of a flag given as a string such as `"0"` is not modelled.
- The distutils lifecycle: `GenerateDockerFile` and `Run` require finalized options, because distutils always finalizes before running.
- Command.DockerBuild: the option attributes of the Python object are held together in one `Options` record field. Each update replaces that record, so aliasing between individual attributes is not modelled.
- Command.DockerBuild.FinalizeOptions: each `if option is None` overwrite is written as a default assignment that leaves a set value unchanged. The outcome is the same.
- Command.DockerBuild.GenerateDockerFile: paths are compared as strings, so the file the generator creates is seen by the requirements probe only under the spelling `join(path, generated name)`. A requirements name that reaches the same file by another spelling, such as `./.Dockerfile-generated` under the build context `.`, gets no pip install line, although `elver/docker_build.py:136-137` would write one. Path normalization and symbolic links are not modelled.
- Command.DockerBuild.Run: it inherits that gap through `GenerateDockerFile`. The generated lines it returns come from the existing paths plus the single spelling `join(path, ".Dockerfile-generated")`. The same string comparison applies to its own probe of `join(path, dockerfile)`.
- Command.DockerBuild.GenerateDockerFile: the `dockerfile_generated_name` parameter is modelled, but `Run` only ever passes the default `.Dockerfile-generated`, as the source does.
- Dockerfile.GeneratedFileReadsBack: an option text that contains a newline would split one instruction across several lines, so the read-back property is stated only for newline-free options.
- Command.ImageReferenceRoundTrip: a tag that contains a colon would be split differently by a reader, so the round trip is stated only for colon-free tags.

=== FILE: command.dfy ===
/**
 * The `docker_build` command object: its option fields, the defaulting step,
 * the Dockerfile generation it falls back on, and the build request its run
 * hands to the Docker client.
 */
module Command {
  import opened Wrappers
  import opened Paths
  import opened CommandOptions
  import opened Dockerfile

  /** The arguments `run` passes to the Docker client's `images.build`. */
  datatype BuildRequest = BuildRequest(
    path: string,
    dockerfile: string,
    tag: string,
    quiet: Option<bool>,
    nocache: Option<bool>,
    rm: Option<bool>,
    timeout: Option<int>,
    pull: Option<bool>,
    forcerm: Option<bool>,
    containerLimits: Option<map<string, string>>,
    shmsize: Option<int>,
    labels: Option<map<string, string>>,
    cacheFrom: Option<seq<string>>,
    target: Option<string>,
    networkMode: Option<string>,
    squash: Option<bool>,
    extraHosts: Option<map<string, string>>
  )

  /** A file the command writes: where it goes and the lines handed to `writelines`. */
  datatype WrittenFile = WrittenFile(location: string, lines: seq<string>)

  /** An image reference as a reader splits it: repository, then the tag if there is one. */
  datatype Reference = Reference(repository: string, tag: Option<string>)

  /** The `repository:tag` reference the image is built under. */
  function ImageReference(repository: string, tag: string): (ref: string)
    ensures |ref| == |repository| + 1 + |tag|
    ensures ref[..|repository|] == repository && ref[|repository|] == ':' && ref[|repository| + 1..] == tag
  {
    repository + ":" + tag
  }

  /** Index of the last colon of `s`, or -1 when it has none. */
  function LastColon(s: string): (k: int)
    ensures -1 <= k < |s|
    ensures k >= 0 ==> s[k] == ':'
    ensures forall i :: k < i < |s| ==> s[i] != ':'
  {
    if s == [] then -1
    else if s[|s| - 1] == ':' then |s| - 1
    else LastColon(s[..|s| - 1])
  }

  /** Splits a reference at its last colon: what follows is the tag. */
  function ParseReference(ref: string): Reference {
    var k := LastColon(ref);
    if k < 0 then Reference(ref, None) else Reference(ref[..k], Some(ref[k + 1..]))
  }

  /** A tag without a colon is read back from the reference, and so is the repository. */
  lemma ImageReferenceRoundTrip(repository: string, tag: string)
    requires ':' !in tag
    ensures ParseReference(ImageReference(repository, tag)) == Reference(repository, Some(tag))
  {
    var ref := ImageReference(repository, tag);
    assert ref[|repository|] == ':';
    forall i | |repository| < i < |ref| ensures ref[i] != ':' {
      assert ref[i] == tag[i - |repository| - 1];
    }
    assert LastColon(ref) == |repository|;
    assert ref[..|repository|] == repository;
    assert ref[|repository| + 1..] == tag;
  }

  /** The notice announced before a Dockerfile is generated. */
  function GeneratingNotice(dockerfileLocation: string): string {
    "Dockerfile doesn't exist at " + dockerfileLocation + ", generating a default one"
  }

  /** Where `run` looks for the configured Dockerfile: its name joined onto the build context. */
  function ConfiguredDockerfile(o: Options): (p: string)
    requires Finalized(o)
    // an absolute Dockerfile name is looked up as it is; any name ends the path looked up
    ensures IsAbsolute(o.dockerfile.value) ==> p == o.dockerfile.value
    ensures |o.dockerfile.value| <= |p| && p[|p| - |o.dockerfile.value|..] == o.dockerfile.value
  {
    Join(o.path.value, o.dockerfile.value)
  }

  /** The Dockerfile `run` hands to the build: the configured one when it exists, else the generated one. */
  function EffectiveDockerfile(o: Options, fs: set<string>): (d: string)
    requires Finalized(o)
    // the configured name is kept exactly when it is found; otherwise the generated one replaces it
    ensures ConfiguredDockerfile(o) in fs ==> d == o.dockerfile.value
    ensures ConfiguredDockerfile(o) !in fs ==> d == GeneratedName
    ensures Join(o.path.value, d) in fs + {Join(o.path.value, GeneratedName)}
  {
    if ConfiguredDockerfile(o) in fs then o.dockerfile.value else GeneratedName
  }

  /** The request `run` builds from finalized options `o` when `fs` holds the existing paths. */
  function PlannedRequest(o: Options, fs: set<string>): (r: BuildRequest)
    requires Finalized(o)
    // the build context is the configured path
    ensures r.path == o.path.value
    // the Dockerfile named exists once the run has written what it generates
    ensures Join(r.path, r.dockerfile) in fs + {Join(o.path.value, GeneratedName)}
    // an existing Dockerfile always wins over generation, and a missing one is replaced
    ensures ConfiguredDockerfile(o) in fs ==> r.dockerfile == o.dockerfile.value
    ensures ConfiguredDockerfile(o) !in fs ==> r.dockerfile == GeneratedName
    // the image is tagged `repository:tag`, which reads back as the configured repository and tag
    ensures r.tag == ImageReference(o.repository.value, o.tag.value)
    ensures ':' !in o.tag.value ==> ParseReference(r.tag) == Reference(o.repository.value, Some(o.tag.value))
    // every other build option is forwarded unchanged
    ensures && r.quiet == o.quiet && r.nocache == o.nocache && r.rm == o.rm && r.timeout == o.timeout
            && r.pull == o.pull && r.forcerm == o.forcerm && r.containerLimits == o.containerLimits
            && r.shmsize == o.shmsize && r.labels == o.labels && r.cacheFrom == o.cacheFrom
            && r.target == o.target && r.networkMode == o.networkMode && r.squash == o.squash
            && r.extraHosts == o.extraHosts
  {
    var ref := ImageReference(o.repository.value, o.tag.value);
    assert ':' !in o.tag.value ==> ParseReference(ref) == Reference(o.repository.value, Some(o.tag.value)) by {
      if ':' !in o.tag.value {
        ImageReferenceRoundTrip(o.repository.value, o.tag.value);
      }
    }
    BuildRequest(
      o.path.value, EffectiveDockerfile(o, fs), ref,
      o.quiet, o.nocache, o.rm, o.timeout, o.pull, o.forcerm, o.containerLimits, o.shmsize,
      o.labels, o.cacheFrom, o.target, o.networkMode, o.squash, o.extraHosts)
  }

  /**
   * The generated file is already on disk when the requirements file is probed,
   * so a requirements file that names it is installed.
   */
  lemma RequirementsProbeSeesGeneratedFile(o: Options, fs: set<string>)
    requires Finalized(o) && !Truthy(o.genDoNotCopyPath) && !Truthy(o.genDoNotInstallRequirments)
    requires Join(o.path.value, o.genRequirmentsFile.value) == Join(o.path.value, GeneratedName)
    ensures PipInstallLine(Join(o.genPathCopyDir.value, o.genRequirmentsFile.value))
            in GeneratedLines(o, fs + {Join(o.path.value, GeneratedName)})
  {
    GeneratedPipInstallLine(o, fs + {Join(o.path.value, GeneratedName)});
  }

  /**
   * The `docker_build` command: its option attributes, held together as one
   * `Options` record, and the notices it has announced so far.
   */
  class DockerBuild {
    var options: Options
    var announcements: seq<string>

    /** `initialize_options`: every option unset, `rm` off. */
    constructor ()
      ensures options == Initial && announcements == []
    {
      options := Initial;
      announcements := [];
    }

    /** `finalize_options`: fills each unset option with its default; `freshId` is the UUID drawn. */
    method FinalizeOptions(freshId: string)
      modifies this
      ensures options == Finalize(old(options), freshId)
      ensures announcements == old(announcements) + FinalizeNotices(old(options), freshId)
    {
      if options.repository.None? {
        announcements := announcements + [RandomRepositoryNotice(freshId)];
        options := options.(repository := Some(freshId));
      }
      // each remaining `if ... is None` overwrite leaves a set option as it is
      options := options.(tag := OrDefault(options.tag, DefaultTag));
      options := options.(path := OrDefault(options.path, DefaultPath));
      options := options.(dockerfile := OrDefault(options.dockerfile, DefaultDockerfile));
      options := options.(genBaseImage := OrDefault(options.genBaseImage, DefaultBaseImage));
      options := options.(genDoNotCopyPath := OrDefault(options.genDoNotCopyPath, false));
      options := options.(genPathCopyDir := OrDefault(options.genPathCopyDir, DefaultCopyDir));
      options := options.(genRequirmentsFile := OrDefault(options.genRequirmentsFile, DefaultRequirementsFile));
      options := options.(genDoNotInstallRequirments := OrDefault(options.genDoNotInstallRequirments, false));
    }

    /**
     * `__generate_docker_file`: announces the generation, builds the lines one
     * append at a time and returns `generatedName` together with the file it
     * writes under the build context. `fs` is the set of paths that exist before
     * the call; the generated file exists from the moment it is opened for
     * writing, before the requirements file is probed. `canCreate` says whether
     * that opening succeeds: it fails, raising after the notice, when the build
     * context is missing or not writable, and then nothing is returned.
     */
    method GenerateDockerFile(dockerfileLocation: string, generatedName: string, fs: set<string>, canCreate: bool)
      returns (name: Option<string>, written: Option<WrittenFile>)
      requires Finalized(options)
      modifies this`announcements
      ensures canCreate ==> name == Some(generatedName)
      ensures canCreate ==> written == Some(WrittenFile(Join(options.path.value, generatedName),
                                                        GeneratedLines(options, fs + {Join(options.path.value, generatedName)})))
      ensures !canCreate ==> name == None && written == None
      ensures announcements == old(announcements) + [GeneratingNotice(dockerfileLocation)]
    {
      announcements := announcements + [GeneratingNotice(dockerfileLocation)];
      var o := options;
      var generatedLocation := Join(o.path.value, generatedName);
      if !canCreate {
        // the file cannot be opened for writing: the error leaves the method
        return None, None;
      }
      // opening the file for writing creates it
      var present := fs + {generatedLocation};
      var content: seq<string> := [];
      content := content + [Header];
      content := content + [FromLine(o.genBaseImage.value)];
      ghost var head := content;
      assert head == [Header, FromLine(o.genBaseImage.value)];
      if !Truthy(o.genDoNotCopyPath) {
        content := content + [CopyLine(o.path.value, o.genPathCopyDir.value)];
      }
      ghost var copied := content;
      assert copied == head + Optional(CopiesPath(o), CopyLine(o.path.value, o.genPathCopyDir.value));
      if !Truthy(o.genDoNotInstallRequirments) && !Truthy(o.genDoNotCopyPath) {
        var reqFilename := Join(o.path.value, o.genRequirmentsFile.value);
        var reqFilenameDocker := Join(o.genPathCopyDir.value, o.genRequirmentsFile.value);
        if reqFilename in present {
          content := content + [PipInstallLine(reqFilenameDocker)];
        }
      }
      ghost var installed := content;
      assert installed == copied + Optional(InstallsRequirements(o, present),
                                            PipInstallLine(Join(o.genPathCopyDir.value, o.genRequirmentsFile.value)));
      if IsSet(o.genEntryPoint) {
        content := content + [EntrypointLine(o.genEntryPoint.value)];
      }
      ghost var entered := content;
      assert entered == installed + Optional(IsSet(o.genEntryPoint),
                                             EntrypointLine(EntryPointText(o)));
      if IsSet(o.genCmd) {
        content := content + [CmdLine(o.genCmd.value)];
      }
      assert content == entered + Optional(IsSet(o.genCmd), CmdLine(CmdText(o)));
      assert content == Layout(Header, FromLine(o.genBaseImage.value), CopyLine(o.path.value, o.genPathCopyDir.value),
                               PipInstallLine(Join(o.genPathCopyDir.value, o.genRequirmentsFile.value)),
                               EntrypointLine(EntryPointText(o)),
                               CmdLine(CmdText(o)),
                               CopiesPath(o), InstallsRequirements(o, present), IsSet(o.genEntryPoint), IsSet(o.genCmd));
      assert content == GeneratedLines(o, present);
      written := Some(WrittenFile(generatedLocation, content));
      name := Some(generatedName);
    }

    /**
     * `run`, up to the call into the Docker client: falls back on a generated
     * Dockerfile when the configured one does not exist under the build context,
     * and returns the build request together with the file generated, if any.
     * `canCreate` says whether the generated file can be opened for writing; when
     * it is needed and cannot be, `run` fails before the Docker client is called
     * and no request is returned.
     */
    method Run(fs: set<string>, canCreate: bool) returns (request: Option<BuildRequest>, written: Option<WrittenFile>)
      requires Finalized(options)
      modifies this
      // an existing Dockerfile is used as it is: nothing is generated or announced
      ensures ConfiguredDockerfile(old(options)) in fs ==>
                && request == Some(PlannedRequest(old(options), fs))
                && options == old(options) && written == None && announcements == old(announcements)
      // a missing one is announced, then generated and switched to
      ensures ConfiguredDockerfile(old(options)) !in fs ==>
                announcements == old(announcements) + [GeneratingNotice(ConfiguredDockerfile(old(options)))]
      ensures ConfiguredDockerfile(old(options)) !in fs && canCreate ==>
                && request == Some(PlannedRequest(old(options), fs))
                && options == old(options).(dockerfile := Some(GeneratedName))
                && written == Some(WrittenFile(Join(old(options).path.value, GeneratedName),
                                               GeneratedLines(old(options), fs + {Join(old(options).path.value, GeneratedName)})))
      // ... unless it cannot be written, and then the run fails with the options unchanged
      ensures ConfiguredDockerfile(old(options)) !in fs && !canCreate ==>
                request == None && written == None && options == old(options)
    {
      var dockerfileLocation := Join(options.path.value, options.dockerfile.value);
      written := None;
      if dockerfileLocation !in fs {
        var name, file := GenerateDockerFile(dockerfileLocation, GeneratedName, fs, canCreate);
        if name.None? {
          return None, None;
        }
        options := options.(dockerfile := name);
        written := file;
      }
      var o := options;
      request := Some(BuildRequest(
        o.path.value, o.dockerfile.value, ImageReference(o.repository.value, o.tag.value),
        o.quiet, o.nocache, o.rm, o.timeout, o.pull, o.forcerm, o.containerLimits, o.shmsize,
        o.labels, o.cacheFrom, o.target, o.networkMode, o.squash, o.extraHosts));
    }
  }
}

=== FILE: dockerfile.dfy ===
/**
 * The Dockerfile the build command synthesizes when the configured one is missing:
 * its instruction lines, how a reader classifies them, and what the generated
 * sequence is guaranteed to look like.
 */
module Dockerfile {
  import opened Wrappers
  import opened Paths
  import opened Text
  import opened CommandOptions

  /** The name, relative to the build context, the generated Dockerfile is written under. */
  const GeneratedName := ".Dockerfile-generated"

  /** The first line of every generated Dockerfile. */
  const Header := Line("#" + HeaderText)

  // written as two literals: the verifier checks a character's absence from a long literal poorly
  const HeaderText := "THIS FILE WAS GENERATED BY ELVER, " + "DO NOT CHANGE MANUALLY"

  function FromLine(image: string): string {
    Line("FROM " + image)
  }

  function CopyLine(src: string, dest: string): string {
    Line("COPY " + src + " " + dest)
  }

  function PipInstallLine(requirements: string): string {
    Line("RUN " + PipInstallArgs(requirements))
  }

  /** The exec-form argument list `["pip", "install", "-r", "<requirements>"]`. */
  function PipInstallArgs(requirements: string): string {
    "[\"pip\", \"install\", \"-r\", \"" + requirements + "\"]"
  }

  function EntrypointLine(entryPoint: string): string {
    Line("ENTRYPOINT " + entryPoint)
  }

  function CmdLine(cmd: string): string {
    Line("CMD " + cmd)
  }

  /** The generated Dockerfile copies the build context into the image. */
  predicate CopiesPath(o: Options) {
    !Truthy(o.genDoNotCopyPath)
  }

  /** The generated Dockerfile installs the requirements: copying on, install not skipped, file present. */
  predicate InstallsRequirements(o: Options, fs: set<string>)
    requires Finalized(o)
  {
    && !Truthy(o.genDoNotInstallRequirments)
    && !Truthy(o.genDoNotCopyPath)
    && Join(o.path.value, o.genRequirmentsFile.value) in fs
  }

  /** The one-line sequence `[l]` when `present` holds, nothing otherwise. */
  function Optional(present: bool, l: string): seq<string> {
    if present then [l] else []
  }

  /** A header, a FROM line, then each optional line that is switched on, in this order. */
  function Layout(h: string, f: string, c: string, p: string, e: string, m: string,
                  hasC: bool, hasP: bool, hasE: bool, hasM: bool): (r: seq<string>)
    ensures 2 <= |r| <= 6 && r[0] == h && r[1] == f
  {
    [h, f] + Optional(hasC, c) + Optional(hasP, p) + Optional(hasE, e) + Optional(hasM, m)
  }

  /**
   * The lines the generator writes for options `o`, when `fs` is the set of paths
   * that exist on the filesystem.
   */
  function GeneratedLines(o: Options, fs: set<string>): (r: seq<string>)
    requires Finalized(o)
    ensures 2 <= |r| <= 6
    ensures r[0] == Header && r[1] == FromLine(o.genBaseImage.value)
  {
    var path, copyDir, requirements := o.path.value, o.genPathCopyDir.value, o.genRequirmentsFile.value;
    Layout(Header, FromLine(o.genBaseImage.value), CopyLine(path, copyDir),
           PipInstallLine(Join(copyDir, requirements)),
           EntrypointLine(EntryPointText(o)),
           CmdLine(CmdText(o)),
           CopiesPath(o), InstallsRequirements(o, fs), IsSet(o.genEntryPoint), IsSet(o.genCmd))
  }

  // ---------------------------------------------------------------------------
  // Reading a Dockerfile line back: its instruction is the keyword it opens with.

  datatype Kind = Comment | From | Copy | Run | Entrypoint | Cmd | Other

  /** The instruction a Dockerfile line holds, by its opening keyword. */
  function KindOf(line: string): Kind {
    if "#" <= line then Comment
    else if "FROM " <= line then From
    else if "COPY " <= line then Copy
    else if "RUN " <= line then Run
    else if "ENTRYPOINT " <= line then Entrypoint
    else if "CMD " <= line then Cmd
    else Other
  }

  /** The instructions of a sequence of lines, line by line. */
  function KindsOf(lines: seq<string>): (ks: seq<Kind>)
    ensures |ks| == |lines|
  {
    if lines == [] then [] else [KindOf(lines[0])] + KindsOf(lines[1..])
  }

  /** The position of each instruction in the generator's fixed order. */
  function Rank(k: Kind): nat {
    match k
    case Comment => 0
    case From => 1
    case Copy => 2
    case Run => 3
    case Entrypoint => 4
    case Cmd => 5
    case Other => 6
  }

  /** Each instruction occurs at most once, and in the fixed order. */
  predicate Increasing(ks: seq<Kind>) {
    forall i, j :: 0 <= i < j < |ks| ==> Rank(ks[i]) < Rank(ks[j])
  }

  /** The lines hold each instruction at most once, in the generator's order. */
  predicate StrictlyRanked(lines: seq<string>) {
    Increasing(KindsOf(lines))
  }

  /** Some line of `lines` holds instruction `k`. */
  predicate HasKind(lines: seq<string>, k: Kind) {
    k in KindsOf(lines)
  }

  /** A line opens with the keyword it was built from. */
  lemma KeywordPrefix(keyword: string, rest: string)
    ensures keyword <= Line(keyword + rest)
  {
    assert Line(keyword + rest)[..|keyword|] == (keyword + rest)[..|keyword|] == keyword;
  }

  // Every line the generator can write is read back as the instruction it was built for.

  lemma HeaderKind()
    ensures KindOf(Header) == Comment
  {
    KeywordPrefix("#", HeaderText);
  }

  lemma FromLineKind(image: string)
    ensures KindOf(FromLine(image)) == From
  {
    KeywordPrefix("FROM ", image);
    assert FromLine(image)[0] == 'F';
  }

  lemma CopyLineKind(src: string, dest: string)
    ensures KindOf(CopyLine(src, dest)) == Copy
  {
    KeywordPrefix("COPY ", src + " " + dest);
    assert "COPY " + src + " " + dest == "COPY " + (src + " " + dest);
    assert CopyLine(src, dest)[0] == 'C';
  }

  lemma PipInstallLineKind(requirements: string)
    ensures KindOf(PipInstallLine(requirements)) == Run
  {
    KeywordPrefix("RUN ", PipInstallArgs(requirements));
    assert PipInstallLine(requirements)[0] == 'R';
  }

  lemma EntrypointLineKind(entryPoint: string)
    ensures KindOf(EntrypointLine(entryPoint)) == Entrypoint
  {
    KeywordPrefix("ENTRYPOINT ", entryPoint);
    assert EntrypointLine(entryPoint)[0] == 'E';
  }

  lemma CmdLineKind(cmd: string)
    ensures KindOf(CmdLine(cmd)) == Cmd
  {
    KeywordPrefix("CMD ", cmd);
    assert CmdLine(cmd)[0] == 'C' && CmdLine(cmd)[1] == 'M';
  }

  /** Classifying line by line distributes over concatenation. */
  lemma {:induction false} KindsOfAppend(a: seq<string>, b: seq<string>)
    ensures KindsOf(a + b) == KindsOf(a) + KindsOf(b)
  {
    if a != [] {
      assert (a + b)[1..] == a[1..] + b;
      KindsOfAppend(a[1..], b);
    } else {
      assert a + b == b;
    }
  }

  /** The instruction of an optional line, when it is there. */
  lemma KindsOfOptional(present: bool, l: string, k: Kind)
    requires KindOf(l) == k
    ensures KindsOf(Optional(present, l)) == if present then [k] else []
  {
  }

  /** The instructions, in order, of a header, a FROM line and the optional lines that are switched on. */
  function LayoutKinds(hasC: bool, hasP: bool, hasE: bool, hasM: bool): seq<Kind> {
    [Comment, From] + (if hasC then [Copy] else []) + (if hasP then [Run] else [])
    + (if hasE then [Entrypoint] else []) + (if hasM then [Cmd] else [])
  }

  /** Lines of the expected instructions, laid out in the generator's order, have the layout's kinds. */
  lemma KindsOfLayout(h: string, f: string, c: string, p: string, e: string, m: string,
                      hasC: bool, hasP: bool, hasE: bool, hasM: bool)
    requires KindOf(h) == Comment && KindOf(f) == From && KindOf(c) == Copy
    requires KindOf(p) == Run && KindOf(e) == Entrypoint && KindOf(m) == Cmd
    ensures KindsOf(Layout(h, f, c, p, e, m, hasC, hasP, hasE, hasM)) == LayoutKinds(hasC, hasP, hasE, hasM)
  {
    var base := [h, f];
    assert KindsOf(base) == [Comment, From];
    KindsOfOptional(hasC, c, Copy);
    KindsOfOptional(hasP, p, Run);
    KindsOfOptional(hasE, e, Entrypoint);
    KindsOfOptional(hasM, m, Cmd);
    KindsOfAppend(base, Optional(hasC, c));
    KindsOfAppend(base + Optional(hasC, c), Optional(hasP, p));
    KindsOfAppend(base + Optional(hasC, c) + Optional(hasP, p), Optional(hasE, e));
    KindsOfAppend(base + Optional(hasC, c) + Optional(hasP, p) + Optional(hasE, e), Optional(hasM, m));
  }

  /** Every instruction in `ks` comes no later than position `n`. */
  predicate RanksAtMost(ks: seq<Kind>, n: nat) {
    forall i :: 0 <= i < |ks| ==> Rank(ks[i]) <= n
  }

  /** Appending, when `present`, an instruction that ranks after every one in `ks` keeps the order strict. */
  lemma IncreasingAppend(ks: seq<Kind>, k: Kind, present: bool)
    requires Rank(k) > 0 && Increasing(ks) && RanksAtMost(ks, Rank(k) - 1)
    ensures Increasing(ks + (if present then [k] else []))
    ensures RanksAtMost(ks + (if present then [k] else []), Rank(k))
  {
  }

  /** The layout holds an optional instruction exactly when it is switched on. */
  lemma LayoutMembers(hasC: bool, hasP: bool, hasE: bool, hasM: bool)
    ensures (Copy in LayoutKinds(hasC, hasP, hasE, hasM)) == hasC
    ensures (Run in LayoutKinds(hasC, hasP, hasE, hasM)) == hasP
    ensures (Entrypoint in LayoutKinds(hasC, hasP, hasE, hasM)) == hasE
    ensures (Cmd in LayoutKinds(hasC, hasP, hasE, hasM)) == hasM
  {
  }

  /** The layout is strictly increasing. */
  lemma LayoutIncreasing(hasC: bool, hasP: bool, hasE: bool, hasM: bool)
    ensures Increasing(LayoutKinds(hasC, hasP, hasE, hasM))
  {
    var k0 := [Comment, From];
    var k1 := k0 + (if hasC then [Copy] else []);
    IncreasingAppend(k0, Copy, hasC);
    var k2 := k1 + (if hasP then [Run] else []);
    IncreasingAppend(k1, Run, hasP);
    var k3 := k2 + (if hasE then [Entrypoint] else []);
    IncreasingAppend(k2, Entrypoint, hasE);
    IncreasingAppend(k3, Cmd, hasM);
  }

  /**
   * The generated lines come in the fixed order header, FROM, COPY, RUN,
   * ENTRYPOINT, CMD, each instruction at most once, and each optional
   * instruction is present exactly when its condition holds.
   */
  lemma GeneratedShape(o: Options, fs: set<string>)
    requires Finalized(o)
    ensures StrictlyRanked(GeneratedLines(o, fs))
    ensures HasKind(GeneratedLines(o, fs), Copy) <==> CopiesPath(o)
    ensures HasKind(GeneratedLines(o, fs), Run) <==> InstallsRequirements(o, fs)
    ensures HasKind(GeneratedLines(o, fs), Entrypoint) <==> IsSet(o.genEntryPoint)
    ensures HasKind(GeneratedLines(o, fs), Cmd) <==> IsSet(o.genCmd)
  {
    var path, copyDir, requirements := o.path.value, o.genPathCopyDir.value, o.genRequirmentsFile.value;
    var entryPoint := EntryPointText(o);
    var cmd := CmdText(o);
    var hasC, hasP, hasE, hasM := CopiesPath(o), InstallsRequirements(o, fs), IsSet(o.genEntryPoint), IsSet(o.genCmd);
    HeaderKind();
    FromLineKind(o.genBaseImage.value);
    CopyLineKind(path, copyDir);
    PipInstallLineKind(Join(copyDir, requirements));
    EntrypointLineKind(entryPoint);
    CmdLineKind(cmd);
    KindsOfLayout(Header, FromLine(o.genBaseImage.value), CopyLine(path, copyDir),
                  PipInstallLine(Join(copyDir, requirements)), EntrypointLine(entryPoint), CmdLine(cmd),
                  hasC, hasP, hasE, hasM);
    LayoutMembers(hasC, hasP, hasE, hasM);
    LayoutIncreasing(hasC, hasP, hasE, hasM);
  }

  /** The i-th instruction of `lines` is the kind of their i-th line. */
  lemma {:induction false} KindWitness(lines: seq<string>, i: nat)
    requires i < |lines|
    ensures KindsOf(lines)[i] == KindOf(lines[i])
  {
    if i > 0 {
      KindWitness(lines[1..], i - 1);
    }
  }

  /** The instruction of any line of a layout is one of the layout's instructions. */
  lemma LayoutWitness(h: string, f: string, c: string, p: string, e: string, m: string,
                      hasC: bool, hasP: bool, hasE: bool, hasM: bool, x: string)
    requires KindOf(h) == Comment && KindOf(f) == From && KindOf(c) == Copy
    requires KindOf(p) == Run && KindOf(e) == Entrypoint && KindOf(m) == Cmd
    ensures x in Layout(h, f, c, p, e, m, hasC, hasP, hasE, hasM) ==> KindOf(x) in LayoutKinds(hasC, hasP, hasE, hasM)
  {
    var r := Layout(h, f, c, p, e, m, hasC, hasP, hasE, hasM);
    if x in r {
      var i :| 0 <= i < |r| && r[i] == x;
      KindWitness(r, i);
      KindsOfLayout(h, f, c, p, e, m, hasC, hasP, hasE, hasM);
    }
  }

  /** With copying on, the COPY line is the third line of a layout. */
  lemma LayoutCopyAfterFrom(h: string, f: string, c: string, p: string, e: string, m: string,
                            hasP: bool, hasE: bool, hasM: bool)
    ensures |Layout(h, f, c, p, e, m, true, hasP, hasE, hasM)| > 2
    ensures Layout(h, f, c, p, e, m, true, hasP, hasE, hasM)[2] == c
  {
  }

  /** The COPY line is there exactly when copying is on, and then it comes right after FROM. */
  lemma GeneratedCopyLine(o: Options, fs: set<string>)
    requires Finalized(o)
    ensures CopyLine(o.path.value, o.genPathCopyDir.value) in GeneratedLines(o, fs) <==> CopiesPath(o)
    ensures CopiesPath(o) ==> GeneratedLines(o, fs)[2] == CopyLine(o.path.value, o.genPathCopyDir.value)
  {
    var c := CopyLine(o.path.value, o.genPathCopyDir.value);
    if CopiesPath(o) {
      LayoutCopyAfterFrom(Header, FromLine(o.genBaseImage.value), c,
        PipInstallLine(Join(o.genPathCopyDir.value, o.genRequirmentsFile.value)),
        EntrypointLine(EntryPointText(o)),
        CmdLine(CmdText(o)),
        InstallsRequirements(o, fs), IsSet(o.genEntryPoint), IsSet(o.genCmd));
    }
    if c in GeneratedLines(o, fs) {
      GeneratedShapeWitness(o, fs, c);
      CopyLineKind(o.path.value, o.genPathCopyDir.value);
      LayoutMembers(CopiesPath(o), InstallsRequirements(o, fs), IsSet(o.genEntryPoint), IsSet(o.genCmd));
    }
  }

  /**
   * The pip install line, naming the requirements file inside the image, is there
   * exactly when copying is on, installing is not skipped and the file exists.
   */
  lemma GeneratedPipInstallLine(o: Options, fs: set<string>)
    requires Finalized(o)
    ensures PipInstallLine(Join(o.genPathCopyDir.value, o.genRequirmentsFile.value)) in GeneratedLines(o, fs)
            <==> InstallsRequirements(o, fs)
  {
    var p := PipInstallLine(Join(o.genPathCopyDir.value, o.genRequirmentsFile.value));
    if p in GeneratedLines(o, fs) {
      GeneratedShapeWitness(o, fs, p);
      PipInstallLineKind(Join(o.genPathCopyDir.value, o.genRequirmentsFile.value));
      LayoutMembers(CopiesPath(o), InstallsRequirements(o, fs), IsSet(o.genEntryPoint), IsSet(o.genCmd));
    }
  }

  /** The entry point and the command each appear with their text exactly when they are set and non-empty. */
  lemma GeneratedEntrypointAndCmd(o: Options, fs: set<string>)
    requires Finalized(o)
    ensures o.genEntryPoint.Some? ==>
              (EntrypointLine(o.genEntryPoint.value) in GeneratedLines(o, fs) <==> IsSet(o.genEntryPoint))
    ensures o.genCmd.Some? ==> (CmdLine(o.genCmd.value) in GeneratedLines(o, fs) <==> IsSet(o.genCmd))
  {
    var hasC, hasP, hasE, hasM := CopiesPath(o), InstallsRequirements(o, fs), IsSet(o.genEntryPoint), IsSet(o.genCmd);
    if o.genEntryPoint.Some? && EntrypointLine(o.genEntryPoint.value) in GeneratedLines(o, fs) {
      GeneratedShapeWitness(o, fs, EntrypointLine(o.genEntryPoint.value));
      EntrypointLineKind(o.genEntryPoint.value);
      LayoutMembers(hasC, hasP, hasE, hasM);
    }
    if o.genCmd.Some? && CmdLine(o.genCmd.value) in GeneratedLines(o, fs) {
      GeneratedShapeWitness(o, fs, CmdLine(o.genCmd.value));
      CmdLineKind(o.genCmd.value);
      LayoutMembers(hasC, hasP, hasE, hasM);
    }
  }

  /** Every generated line holds one of the layout's instructions. */
  lemma GeneratedShapeWitness(o: Options, fs: set<string>, x: string)
    requires Finalized(o)
    ensures x in GeneratedLines(o, fs) ==>
              KindOf(x) in LayoutKinds(CopiesPath(o), InstallsRequirements(o, fs), IsSet(o.genEntryPoint), IsSet(o.genCmd))
  {
    var path, copyDir, requirements := o.path.value, o.genPathCopyDir.value, o.genRequirmentsFile.value;
    var entryPoint := EntryPointText(o);
    var cmd := CmdText(o);
    HeaderKind();
    FromLineKind(o.genBaseImage.value);
    CopyLineKind(path, copyDir);
    PipInstallLineKind(Join(copyDir, requirements));
    EntrypointLineKind(entryPoint);
    CmdLineKind(cmd);
    LayoutWitness(Header, FromLine(o.genBaseImage.value), CopyLine(path, copyDir),
                  PipInstallLine(Join(copyDir, requirements)), EntrypointLine(entryPoint), CmdLine(cmd),
                  CopiesPath(o), InstallsRequirements(o, fs), IsSet(o.genEntryPoint), IsSet(o.genCmd), x);
  }

  /** None of the text options that end up in a generated line holds a newline. */
  predicate SingleLineOptions(o: Options)
    requires Finalized(o)
  {
    && Newline !in o.path.value && Newline !in o.genBaseImage.value
    && Newline !in o.genPathCopyDir.value && Newline !in o.genRequirmentsFile.value
    && (o.genEntryPoint.Some? ==> Newline !in o.genEntryPoint.value)
    && (o.genCmd.Some? ==> Newline !in o.genCmd.value)
  }

  /** Every line the generator builds from newline-free text is one complete line. */
  lemma BuiltLinesAreLines(image: string, src: string, dest: string, requirements: string, entryPoint: string, cmd: string)
    ensures Newline !in image ==> IsLine(FromLine(image))
    ensures Newline !in src && Newline !in dest ==> IsLine(CopyLine(src, dest))
    ensures Newline !in requirements ==> IsLine(PipInstallLine(requirements))
    ensures Newline !in entryPoint ==> IsLine(EntrypointLine(entryPoint))
    ensures Newline !in cmd ==> IsLine(CmdLine(cmd))
  {
    if Newline !in src && Newline !in dest {
      NewlineFree("COPY " + src, " " + dest);
    }
    if Newline !in requirements {
      NewlineFree("[\"pip\", \"install\", \"-r\", \"" + requirements, "\"]");
      NewlineFree("RUN ", PipInstallArgs(requirements));
    }
  }

  /** The header is one complete line. */
  lemma HeaderIsLine()
    ensures IsLine(Header)
  {
    assert Newline !in "#" + HeaderText;
  }

  /** Joining two newline-free texts gives a newline-free text. */
  lemma NewlineFree(a: string, b: string)
    requires Newline !in a && Newline !in b
    ensures Newline !in a + b
  {
  }

  /** Complete lines laid out in the generator's order are read back one for one. */
  lemma LayoutReadsBack(h: string, f: string, c: string, p: string, e: string, m: string,
                        hasC: bool, hasP: bool, hasE: bool, hasM: bool)
    requires IsLine(h) && IsLine(f) && IsLine(c) && IsLine(p) && IsLine(e) && IsLine(m)
    ensures LinesOf(Concat(Layout(h, f, c, p, e, m, hasC, hasP, hasE, hasM)))
            == Layout(h, f, c, p, e, m, hasC, hasP, hasE, hasM)
  {
    var r := Layout(h, f, c, p, e, m, hasC, hasP, hasE, hasM);
    assert forall i :: 0 <= i < |r| ==> r[i] in r;
    LinesOfConcat(r);
  }

  /** Whatever the options hold, the written file's first line is the generation header. */
  lemma HeaderIsFirstLine(o: Options, fs: set<string>)
    requires Finalized(o)
    ensures LinesOf(Concat(GeneratedLines(o, fs)))[0] == Header
  {
    var r := GeneratedLines(o, fs);
    assert Concat(r) == Header + Concat(r[1..]);
    HeaderIsLine();
    LinesOfCons(Header, Concat(r[1..]));
  }

  /** With single-line options, each line the generator may write is one complete line. */
  lemma GeneratedPiecesAreLines(o: Options)
    requires Finalized(o) && SingleLineOptions(o)
    ensures IsLine(Header) && IsLine(FromLine(o.genBaseImage.value))
    ensures IsLine(CopyLine(o.path.value, o.genPathCopyDir.value))
    ensures IsLine(PipInstallLine(Join(o.genPathCopyDir.value, o.genRequirmentsFile.value)))
    ensures IsLine(EntrypointLine(EntryPointText(o)))
    ensures IsLine(CmdLine(CmdText(o)))
  {
    var copyDir, requirements := o.genPathCopyDir.value, o.genRequirmentsFile.value;
    assert Newline !in Join(copyDir, requirements);
    HeaderIsLine();
    BuiltLinesAreLines(o.genBaseImage.value, o.path.value, copyDir, Join(copyDir, requirements),
                       EntryPointText(o),
                       CmdText(o));
  }

  /**
   * With single-line options, reading the written file back line by line gives
   * exactly the generated instruction lines.
   */
  lemma GeneratedFileReadsBack(o: Options, fs: set<string>)
    requires Finalized(o) && SingleLineOptions(o)
    ensures LinesOf(Concat(GeneratedLines(o, fs))) == GeneratedLines(o, fs)
  {
    var path, copyDir, requirements := o.path.value, o.genPathCopyDir.value, o.genRequirmentsFile.value;
    GeneratedPiecesAreLines(o);
    LayoutReadsBack(Header, FromLine(o.genBaseImage.value), CopyLine(path, copyDir),
                    PipInstallLine(Join(copyDir, requirements)),
                    EntrypointLine(EntryPointText(o)),
                    CmdLine(CmdText(o)),
                    CopiesPath(o), InstallsRequirements(o, fs), IsSet(o.genEntryPoint), IsSet(o.genCmd));
  }
}

=== FILE: options.dfy ===
/**
 * The options of the `docker_build` command and how unset ones are defaulted.
 * Every option is either `None` (unset) or holds the value the user gave.
 */
module CommandOptions {
  import opened Wrappers

  /** The option values of one `docker_build` command, named as the command names them. */
  datatype Options = Options(
    path: Option<string>,
    dockerfile: Option<string>,
    repository: Option<string>,
    tag: Option<string>,
    quiet: Option<bool>,
    nocache: Option<bool>,
    rm: Option<bool>,
    timeout: Option<int>,
    pull: Option<bool>,
    forcerm: Option<bool>,
    buildargs: Option<map<string, string>>,
    containerLimits: Option<map<string, string>>,
    shmsize: Option<int>,
    labels: Option<map<string, string>>,
    cacheFrom: Option<seq<string>>,
    target: Option<string>,
    networkMode: Option<string>,
    squash: Option<bool>,
    extraHosts: Option<map<string, string>>,
    genBaseImage: Option<string>,
    genEntryPoint: Option<string>,
    genCmd: Option<string>,
    genDoNotCopyPath: Option<bool>,
    genPathCopyDir: Option<string>,
    genRequirmentsFile: Option<string>,
    genDoNotInstallRequirments: Option<bool>
  )

  const DefaultTag := "latest"
  const DefaultPath := "."
  const DefaultDockerfile := "Dockerfile"
  const DefaultBaseImage := "python"
  const DefaultCopyDir := "/code"
  const DefaultRequirementsFile := "requirements.txt"

  /** The state `initialize_options` leaves: every option unset, except `rm`, which is off. */
  const Initial: Options := Options(
    None, None, None, None, None, None, Some(false), None, None, None,
    None, None, None, None, None, None, None, None, None,
    None, None, None, None, None, None, None)

  /** Python truthiness of a flag option: `None` and `False` are false. */
  predicate Truthy(flag: Option<bool>) {
    flag == Some(true)
  }

  /** Python truthiness of a string option: `None` and the empty string are false. */
  predicate IsSet(s: Option<string>) {
    s.Some? && s.value != ""
  }

  /** The entry point's text, empty when it is unset. */
  function EntryPointText(o: Options): (t: string)
    ensures IsSet(o.genEntryPoint) ==> t == o.genEntryPoint.value
  {
    if o.genEntryPoint.Some? then o.genEntryPoint.value else ""
  }

  /** The command's text, empty when it is unset. */
  function CmdText(o: Options): (t: string)
    ensures IsSet(o.genCmd) ==> t == o.genCmd.value
  {
    if o.genCmd.Some? then o.genCmd.value else ""
  }

  /** The options `finalize_options` guarantees to be set. */
  predicate Finalized(o: Options) {
    && o.repository.Some? && o.tag.Some? && o.path.Some? && o.dockerfile.Some?
    && o.genBaseImage.Some? && o.genDoNotCopyPath.Some? && o.genPathCopyDir.Some?
    && o.genRequirmentsFile.Some? && o.genDoNotInstallRequirments.Some?
  }

  /**
   * `r` agrees with `o` on every option `o` already had set, and on every option
   * that finalizing does not touch at all.
   */
  predicate KeepsSetOptions(o: Options, r: Options) {
    && (o.repository.Some? ==> r.repository == o.repository)
    && (o.tag.Some? ==> r.tag == o.tag)
    && (o.path.Some? ==> r.path == o.path)
    && (o.dockerfile.Some? ==> r.dockerfile == o.dockerfile)
    && (o.genBaseImage.Some? ==> r.genBaseImage == o.genBaseImage)
    && (o.genDoNotCopyPath.Some? ==> r.genDoNotCopyPath == o.genDoNotCopyPath)
    && (o.genPathCopyDir.Some? ==> r.genPathCopyDir == o.genPathCopyDir)
    && (o.genRequirmentsFile.Some? ==> r.genRequirmentsFile == o.genRequirmentsFile)
    && (o.genDoNotInstallRequirments.Some? ==> r.genDoNotInstallRequirments == o.genDoNotInstallRequirments)
    // all the remaining options, `rm` among them, are passed through untouched
    && r.(repository := o.repository, tag := o.tag, path := o.path, dockerfile := o.dockerfile,
          genBaseImage := o.genBaseImage, genDoNotCopyPath := o.genDoNotCopyPath,
          genPathCopyDir := o.genPathCopyDir, genRequirmentsFile := o.genRequirmentsFile,
          genDoNotInstallRequirments := o.genDoNotInstallRequirments) == o
  }

  /** Every option `o` left unset holds its fixed default in `r` (the repository: the fresh identifier). */
  predicate FillsDefaults(o: Options, r: Options, freshId: string) {
    && (o.repository.None? ==> r.repository == Some(freshId))
    && (o.tag.None? ==> r.tag == Some(DefaultTag))
    && (o.path.None? ==> r.path == Some(DefaultPath))
    && (o.dockerfile.None? ==> r.dockerfile == Some(DefaultDockerfile))
    && (o.genBaseImage.None? ==> r.genBaseImage == Some(DefaultBaseImage))
    && (o.genDoNotCopyPath.None? ==> r.genDoNotCopyPath == Some(false))
    && (o.genPathCopyDir.None? ==> r.genPathCopyDir == Some(DefaultCopyDir))
    && (o.genRequirmentsFile.None? ==> r.genRequirmentsFile == Some(DefaultRequirementsFile))
    && (o.genDoNotInstallRequirments.None? ==> r.genDoNotInstallRequirments == Some(false))
  }

  /** `Some(d)` in place of `None`; a set value stays as it is. */
  function OrDefault<T>(v: Option<T>, d: T): Option<T> {
    if v.None? then Some(d) else v
  }

  /** What `finalize_options` does to the options, `freshId` standing for the UUID it draws. */
  function Finalize(o: Options, freshId: string): (r: Options)
    ensures Finalized(r)
    ensures KeepsSetOptions(o, r)
    ensures FillsDefaults(o, r, freshId)
    // finalizing twice changes nothing the second time
    ensures Finalized(o) ==> r == o
  {
    o.(repository := OrDefault(o.repository, freshId),
       tag := OrDefault(o.tag, DefaultTag),
       path := OrDefault(o.path, DefaultPath),
       dockerfile := OrDefault(o.dockerfile, DefaultDockerfile),
       genBaseImage := OrDefault(o.genBaseImage, DefaultBaseImage),
       genDoNotCopyPath := OrDefault(o.genDoNotCopyPath, false),
       genPathCopyDir := OrDefault(o.genPathCopyDir, DefaultCopyDir),
       genRequirmentsFile := OrDefault(o.genRequirmentsFile, DefaultRequirementsFile),
       genDoNotInstallRequirments := OrDefault(o.genDoNotInstallRequirments, false))
  }

  /** The notice `finalize_options` announces when it invents a repository name. */
  function RandomRepositoryNotice(freshId: string): string {
    "Using a random repository " + freshId
  }

  /** The notices one `finalize_options` call announces: one exactly when the repository was unset. */
  function FinalizeNotices(o: Options, freshId: string): (n: seq<string>)
    ensures |n| == (if o.repository.None? then 1 else 0)
    ensures forall i :: 0 <= i < |n| ==> n[i] == RandomRepositoryNotice(freshId)
  {
    if o.repository.None? then [RandomRepositoryNotice(freshId)] else []
  }

  /** Finalizing the freshly initialized options yields exactly the documented defaults. */
  lemma FinalizeInitial(freshId: string)
    ensures Finalize(Initial, freshId) == Initial.(
      repository := Some(freshId), tag := Some(DefaultTag), path := Some(DefaultPath),
      dockerfile := Some(DefaultDockerfile), genBaseImage := Some(DefaultBaseImage),
      genDoNotCopyPath := Some(false), genPathCopyDir := Some(DefaultCopyDir),
      genRequirmentsFile := Some(DefaultRequirementsFile), genDoNotInstallRequirments := Some(false))
    ensures Finalize(Initial, freshId).rm == Some(false)
    ensures FinalizeNotices(Initial, freshId) == [RandomRepositoryNotice(freshId)]
  {
  }
}

=== FILE: paths.dfy ===
/** The two-argument form of POSIX `os.path.join`, as the build command uses it. */
module Paths {

  const Separator: char := '/'

  /** A path that starts at the root; joining it discards what came before. */
  predicate IsAbsolute(p: string) {
    |p| > 0 && p[0] == Separator
  }

  /**
   * `os.path.join(a, b)` on POSIX: an absolute `b` replaces `a`; otherwise `b` is
   * appended, with a separator unless `a` is empty or already ends in one.
   */
  function Join(a: string, b: string): (r: string)
    // an absolute second argument wins outright
    ensures IsAbsolute(b) ==> r == b
    // a relative second argument keeps the first one as a prefix ...
    ensures !IsAbsolute(b) ==> a <= r && |r| <= |a| + 1 + |b|
    // ... and the result always ends with the second argument
    ensures |b| <= |r| && r[|r| - |b|..] == b
    // joining only ever inserts a separator
    ensures forall c :: c in r ==> c in a || c in b || c == Separator
  {
    if IsAbsolute(b) then b
    else if a == [] || a[|a| - 1] == Separator then a + b
    else a + [Separator] + b
  }

  /** A relative name joined under a directory that does not end in a separator gets exactly one. */
  lemma JoinRelative(dir: string, name: string)
    requires dir != [] && dir[|dir| - 1] != Separator && !IsAbsolute(name)
    ensures Join(dir, name) == dir + [Separator] + name
    ensures |Join(dir, name)| == |dir| + 1 + |name|
  {
  }
}

=== FILE: text.dfy ===
/**
 * Text files as the generator writes them: `writelines` concatenates the
 * instruction lines, each of which carries its own trailing newline.
 */
module Text {

  const Newline: char := '\n'

  /** What `writelines` puts in the file: the lines one after another, nothing added. */
  function Concat(lines: seq<string>): string
  {
    if lines == [] then [] else lines[0] + Concat(lines[1..])
  }

  /** A complete line: a body free of newlines followed by exactly one newline. */
  predicate IsLine(l: string) {
    |l| > 0 && l[|l| - 1] == Newline && Newline !in l[..|l| - 1]
  }

  /** Terminates a line body with a newline. */
  function Line(body: string): (l: string)
    ensures |l| == |body| + 1 && l[..|body|] == body && l[|body|] == Newline
    ensures Newline !in body ==> IsLine(l)
  {
    body + [Newline]
  }

  /** Index of the first newline of `s`, or `|s|` when there is none. */
  function NewlineIndex(s: string): (k: nat)
    ensures k <= |s|
    ensures k < |s| ==> s[k] == Newline
    ensures forall i :: 0 <= i < k ==> s[i] != Newline
  {
    if s == [] then 0
    else if s[0] == Newline then 0
    else 1 + NewlineIndex(s[1..])
  }

  /**
   * How a reader splits a file into lines: each line keeps its newline, and a
   * trailing fragment without one is a last line of its own.
   */
  function LinesOf(s: string): (r: seq<string>)
    ensures Concat(r) == s
    ensures forall i :: 0 <= i < |r| - 1 ==> IsLine(r[i])
    decreases |s|
  {
    if s == [] then []
    else
      var k := NewlineIndex(s);
      if k == |s| then [s]
      else
        var rest := LinesOf(s[k + 1..]);
        assert Concat([s[..k + 1]] + rest) == s[..k + 1] + Concat(rest) by {
          assert ([s[..k + 1]] + rest)[1..] == rest;
        }
        assert s[..k + 1] + s[k + 1..] == s;
        [s[..k + 1]] + rest
  }

  /** A complete line at the front of a text is read back as its first line. */
  lemma LinesOfCons(l: string, rest: string)
    requires IsLine(l)
    ensures LinesOf(l + rest) == [l] + LinesOf(rest)
  {
    var s := l + rest;
    var k := NewlineIndex(s);
    assert s[|l| - 1] == Newline;
    assert k == |l| - 1;
    assert s[..k + 1] == l;
    assert s[k + 1..] == rest;
  }

  /** Writing complete lines and reading the file back gives the same lines. */
  lemma {:induction false} LinesOfConcat(lines: seq<string>)
    requires forall i :: 0 <= i < |lines| ==> IsLine(lines[i])
    ensures LinesOf(Concat(lines)) == lines
  {
    if lines != [] {
      LinesOfConcat(lines[1..]);
      LinesOfCons(lines[0], Concat(lines[1..]));
    }
  }
}

=== FILE: wrappers.dfy ===
/** Option values: a Python attribute that may still be `None`. */
module Wrappers {

  datatype Option<T> = None | Some(value: T)

}
